=== FILE: README.md ===
# MidjourneyCN translation engine in Dafny

MidjourneyCN is a browser extension that translates the Midjourney web interface into
Chinese. A content script holds two dictionaries, one for simplified and one for traditional
script. They are fetched from a CDN and cached in extension storage for six hours. The
script rewrites the page in place: text nodes, five descriptive attributes, and elements
whose only child is text. A MutationObserver repeats the rewrite on whatever the page adds
or changes later.

This project models that translation engine as pure functions over immutable data and
proves properties of it. The modules are:

- `Wrappers` holds `Option`.
- `Keys` covers `normalizeKey` and its parts: the two white-space collapsing replaces, the
  removal of one final colon, `trim` and `toLowerCase`.
- `Translate` covers `getDict` and `translateText`. It also has a reference reading of the
  `a || b || c || text` lookup chain.
- `Loader` covers the cache decision of `loadDictionary`. The stored record, the clock and
  the outcome of the two fetches are inputs. The record written back is an output.
- `Tree` covers `processNode` below its entry guards, together with `translateAttributes`.
  A "frame" predicate bounds everything one pass may change.
- `Observer` covers the entry guards, `translateAll`, and the MutationObserver callback as
  an ordered fold over a batch of mutation records. Nodes are referred to by their path
  from the body, so a node's identity is its position; "## Left out" says where that
  differs from the DOM.

Some consequences of the code that are easy to miss:

- `normalizeKey` is not idempotent. Only one final colon is removed, and it is removed
  before trimming. `Keys.NormalizeNotIdempotent` shows "a::" → "a:" → "a".
  `Keys.NormalizeIdempotentIff` gives the exact condition: the result is a fixed point
  unless it still ends in a colon.
- A trailing space shields a final colon from `normalizeKey`: "Hello\n  World: " normalises
  to "Hello World:" while "Hello World:" normalises to "Hello World"
  (`Keys.SpacingDecidesColonStrip` proves this for one-character words with one space after the line break). `translateText`
  trims before normalising, so for lookups the two texts still reach the same key
  (`Translate.TrimmedSpacingSharesKey`).
- Processing is idempotent when the dictionary is stable, meaning every translation
  translates to itself (`Translate.Stable`, `Tree.ProcessIdempotent`). Without that it may
  not be: `Tree.ProcessTwiceCounterexample` shows {"a": "b", "b": "c"} moving a text from
  "a" to "b" and then to "c".

## Model

| member | source | states |
|---|---|---|
| Keys.CollapseRuns | content.js:39-40 | the replace of every run of matching characters by one space never lengthens the text, leaves only plain spaces among the matching characters, and never leaves two of them adjacent |
| Keys.CollapseWord | content.js:39-40 | a text without matching characters is kept exactly |
| Keys.CollapseRun | content.js:39-40 | a non-empty run of matching characters becomes one space, or nothing when it continues a run |
| Keys.CollapseAppend | content.js:39-40 | collapsing works piece by piece: the second piece is collapsed as inside a run exactly when the first piece ends with a matching character |
| Keys.CollapseMaximalRun | content.js:39-40 | each maximal run between two pieces of text becomes exactly one space, and the pieces are collapsed on their own |
| Keys.CollapseKeepsUnmatched | content.js:40 | for the white-space replace, whose class contains the space, every character outside the runs is kept, in order |
| Keys.CollapseFixedPoint | content.js:39-40 | a text whose matching characters are already isolated plain spaces is left exactly as it is |
| Keys.BreakCollapseRedundant | content.js:39-40 | the tab and line-break replace is subsumed: applying it before the white-space replace changes nothing in the result |
| Keys.CollapseExample | content.js:40 | "a\n b: " collapses to "a b: ": the line break and the following space become one space |
| Keys.DropTrailingColon | content.js:41 | a final ASCII or full-width colon is removed and nothing else; without one the text is unchanged |
| Keys.DropTrailingColonPrefix | content.js:41 | the colon strip only removes the last character, and does so exactly when that character is an ASCII or full-width colon |
| Keys.Trim | content.js:42 | the result has no white space at either end, is a contiguous slice of the input, and everything cut off is white space |
| Keys.TrimOfTrimmed | content.js:42 | trimming a text without outer white space gives it back |
| Keys.TrimIdempotent | content.js:42 | trimming twice is trimming once |
| Keys.TrimTrailingSpace | content.js:42 | one trailing space after a trimmed, non-empty text is all that trimming removes |
| Keys.Lower | content.js:49 | lower-casing keeps the length and maps every character by itself; only A to Z change |
| Keys.LowerKeepsShape | content.js:49 | lower-casing a normalised key leaves it normalised |
| Keys.NormalizeKey | content.js:37-43 | a normal key has no tab or line break, only single plain spaces, no outer white space, and is no longer than the text |
| Keys.NormalizeKeySteps | content.js:38-42 | the tab and line-break step can be dropped: normalising is collapsing white space, dropping one final colon, then trimming |
| Keys.NormalizeFixedPoint | content.js:37-43 | a key that is already normal and does not end in a colon normalises to itself |
| Keys.NormalizeStripsOneColon | content.js:41 | a normal key followed by one ASCII or full-width colon normalises to the key |
| Keys.NormalizeIdempotentIff | content.js:37-43 | normalising twice equals normalising once exactly when the normal form does not end in a colon |
| Keys.NormalizeNotIdempotent | content.js:41 | "a::" normalises to "a:", which normalises to "a" |
| Keys.NormalizeTrailingSpace | content.js:41-42 | a non-empty normal key followed by a space normalises to the key, so a colon before that space survives |
| Keys.NormalizeKeepsColonBeforeSpace | content.js:41-42 | "a: " normalises to "a:" because the colon is not last before trimming |
| Keys.SpacingDecidesColonStrip | content.js:39-42 | "a\n b: " normalises to "a b:" while "a b:" normalises to "a b", so `normalizeKey` alone keeps the colon of the first and drops it from the second |
| Keys.BreakBeforeColonKey | content.js:39-42 | "a\n b:" and "a b:" have the same normal form: the line break and space collapse and the final colon is stripped in both |
| Translate.GetDict | content.js:35 | the traditional-script dictionary exactly when the language is "zh-Hant", the simplified one for every other language string |
| Translate.Hit | content.js:51-53 | `dict[k]` is truthy: the key is present and its value is not the empty string |
| Translate.Candidates | content.js:47-49 | the three keys tried are the trimmed text, its normal form and the lower-cased normal form: the first has no outer white space, the other two are normal keys of equal length, and none is longer than the text |
| Translate.TranslateText | content.js:45-56 | the result is the untouched original text or a non-empty value of the dictionary |
| Translate.FirstHit | content.js:50-55 | the reference lookup finds nothing exactly when no key has a truthy value, and a found value is a non-empty dictionary value |
| Translate.TranslateIsFirstHit | content.js:47-55 | the lookup returns the value of the first of trimmed text, normal key and lower-cased normal key that has a truthy entry, and otherwise the untrimmed text |
| Translate.TranslateMissOrHit | content.js:50-55 | when no candidate key has a truthy value the original, untrimmed text is returned; otherwise a non-empty dictionary value is |
| Translate.TranslateIgnoresOuterSpace | content.js:47-48 | a text and its trim have the same candidate keys, miss together, and translate alike on a hit |
| Translate.TrimmedSpacingSharesKey | content.js:47-48 | "a\n b: " and "a b:" have the same second candidate key, because the text is trimmed before it is normalised |
| Translate.TranslateEmptyDict | content.js:50-55 | with an empty dictionary every text passes through unchanged |
| Translate.TranslateTwice | content.js:45-56 | with a stable dictionary a translation translates to itself |
| Translate.TranslateTwiceCounterexample | content.js:45-56 | with {"a": "b", "b": "c"} the text "a" gives "b" and "b" gives "c" |
| Translate.ColonlessKeyMatches | content.js:48-52 | a normal key stored without its final colon is found for the text with the colon when the text itself is not a key |
| Translate.CaseFoldedKeyMatches | content.js:49-53 | for a normal, colon-less text, a lower-case key is found when the text differs from it only in upper-case letters and neither the text nor its normal form is a key |
| Translate.ExactKeyExample | content.js:51 | "Submit" with {"Submit": "提交"} gives "提交" |
| Translate.CaseFoldedKeyExample | content.js:53 | "Submit" with {"submit": "提交"} gives "提交" |
| Loader.LoadDictionary | content.js:11-34 | the network is used exactly when reloading is forced or the cache is not fresh; a cache hit uses the stored dictionaries, defaulting missing ones to empty, and writes nothing; a successful fetch replaces both dictionaries and writes them with the current time; a failed fetch keeps the dictionaries held before and writes nothing |
| Loader.Fresh | content.js:16 | the cache is fresh when its timestamp is present, not zero, and less than six hours older than now |
| Loader.FreshnessBoundary | content.js:8-16 | a stored time other than zero is fresh until exactly 21 600 000 ms later, that moment excluded |
| Loader.RefreshServedUntilExpiry | content.js:16-29 | after a successful fetch at a non-zero time every unforced load within six hours is served from the cache, gives the same dictionaries and leaves storage alone |
| Loader.RefreshExpires | content.js:16-29 | six hours after a successful fetch the next unforced load goes to the network |
| Loader.FailedRefreshChangesNothing | content.js:22-33 | a failed fetch keeps the dictionaries held before the call and the stored record |
| Loader.ForceAlwaysFetches | content.js:16 | a forced reload goes to the network however fresh the cache |
| Loader.MissingTimestampIsStale | content.js:14-16 | no record, a record without a time, or a time of zero never counts as a cache hit |
| Loader.FirstRunFailureTranslatesNothing | content.js:22-33 | when every fetch fails on the first run the dictionaries stay empty and every text passes through unchanged |
| Tree.TranslatableAttrsDistinct | content.js:62 | the five translated attribute names are distinct |
| Tree.AttrValue | content.js:63-69 | an empty attribute value is kept; a non-empty value is replaced by its translation exactly when that translation differs from it, and otherwise kept; a replacement is a non-empty dictionary value |
| Tree.TranslateAttrs | content.js:62-71 | a pass over distinct names adds and removes no attribute, rewrites exactly the listed present attributes, keeps the others, and reports a change exactly when some value changed |
| Tree.AttributePass | content.js:60-72 | the five allow-listed attributes are rewritten, every other attribute is kept, none is added or removed, and a change is reported exactly when some value changed |
| Tree.ProcessNode | content.js:59-80 | processing keeps the tree's shape, tags, other nodes and attribute names, rewrites only text and allow-listed attributes into non-empty dictionary values, and only ever sets markers |
| Tree.ProcessElement | content.js:59-74 | skipped and already translated elements stay as they are; the others are rewritten, within the same frame |
| Tree.RewriteElement | content.js:75-79 | the attribute pass and then the single text child or each child, within the frame |
| Tree.RewriteSingleText | content.js:76-78 | the single-text-child shortcut stays within the frame |
| Tree.UnmarkedElementPass | content.js:74-79 | an unmarked element that is not skipped gets exactly the attribute pass, gains the attribute marker exactly when that pass changed something or already had it, and is marked translated only through the single-text-child rewrite |
| Tree.ProcessChildren | content.js:79 | every child is processed, in place and independently |
| Tree.ProcessSkips | content.js:59 | script, style and noscript elements, already translated elements and other nodes are returned as they are |
| Tree.ProcessText | content.js:73 | a text node becomes its translation, and changes exactly when the translation differs |
| Tree.SingleTextChildMarker | content.js:76-78 | an unmarked element that is not skipped and has one text child keeps one text child holding the translation, and is marked translated exactly when that text changed |
| Tree.SingleTextChildProcessed | content.js:76-78 | for an unmarked element that is not skipped and has one text child, the text child left afterwards is the old child processed as a text node |
| Tree.AttrMarker | content.js:66-68 | on an element that is not skipped and carries neither marker, the attribute marker is set exactly when some attribute changed |
| Tree.AttrMarkerNeverRead | content.js:68-74 | an element already carrying the attribute marker is processed exactly like one without it, apart from the marker |
| Tree.ProcessEmptyDict | content.js:57-81 | with an empty dictionary processing changes nothing |
| Tree.AttrValueTwice | content.js:63-69 | with a stable dictionary rewriting an attribute twice is rewriting it once |
| Tree.TranslateAttrsTwice | content.js:60-72 | with a stable dictionary a second attribute pass changes nothing and reports no change |
| Tree.ProcessIdempotent | content.js:57-81 | with a stable dictionary processing a processed tree changes nothing |
| Tree.ProcessTwiceCounterexample | content.js:73 | with {"a": "b", "b": "c"} a text node "a" becomes "b" and a second pass makes it "c" |
| Tree.MarkedChildUntouched | content.js:74-79 | each child of an unmarked element that is not skipped and is not a single-text-child element is processed on its own, and an already translated child is left exactly as it was |
| Tree.AttributeRewritten | content.js:62-68 | an allow-listed attribute of an unmarked element whose value translates to something else is replaced and the element gets the attribute marker; it is not marked translated unless its only child is text |
| Tree.PlaceholderLookup | content.js:63-67 | the placeholder "Enter prompt:" is looked up through the key "Enter prompt" |
| Tree.PlaceholderExample | content.js:60-75 | an input whose placeholder is "Enter prompt:" gets that key's translation and the attribute marker |
| Observer.ProcessRef | content.js:57-58 | nothing changes when translation is disabled, the node is null, or it is not in the body; otherwise the node is replaced in place by its processed form |
| Observer.ProcessAll | content.js:85 | processing a list of nodes stays within the frame of the body |
| Observer.HandleRecord | content.js:84-87 | one mutation record stays within the frame of the body |
| Observer.HandleBatch | content.js:83-88 | a batch of mutation records stays within the frame of the body |
| Observer.TranslateAll | content.js:82 | with translation enabled the whole body is processed with the active dictionary; otherwise nothing changes |
| Observer.ProcessRefLocal | content.js:57-81 | processing a node leaves every node that is neither its ancestor nor its descendant where and as it was |
| Observer.ProcessRefKeepsAncestors | content.js:57-81 | processing a node leaves the tag, attributes and markers of each of its ancestors as they were |
| Observer.RevisitRewrittenChild | content.js:76-78 | with a stable dictionary, processing again the text child left by the single-text-child rewrite changes nothing |
| Observer.ProcessRefTwice | content.js:57-81 | with a stable dictionary processing the same node twice is processing it once |
| Observer.ProcessAllAppend | content.js:85 | processing a list in two parts is processing the first part and then the second |
| Observer.HandleRecordVisits | content.js:85-86 | a record processes its added nodes in order, then its target, and the target only for text and attribute changes |
| Observer.HandleBatchVisits | content.js:83-88 | a batch processes exactly its records' visits, record after record |
| Observer.HandleBatchAppend | content.js:83-88 | handling two batches in turn is handling their concatenation |
| Observer.ChildListIgnoresTarget | content.js:86 | the target of a child-list record is never processed |
| Observer.DisabledBatchChangesNothing | content.js:58 | with translation disabled no batch changes anything |
| Observer.DisabledProcessAll | content.js:58 | with translation disabled processing any list of nodes changes nothing |
| Observer.OutsideRefsChangeNothing | content.js:58 | null nodes and nodes outside the body are skipped, so a list naming no node in the body changes nothing |
| Observer.TranslateAllIdempotent | content.js:82 | with a stable dictionary running the full-page pass again over its own result changes nothing |

## Left out

- The control panel and its styles, events and reload (content.js:107-259) are not part of this model. They are user interface, not translation.
- Startup is left out: `main`, the wait for `document.body`, the `DOMContentLoaded` hook, and `initObserver`'s options (content.js:89-104, 261-285). The model starts from a loaded configuration and an existing body. It assumes the observer delivers exactly the child-list, text and allow-listed attribute records it subscribes to.
- Storage, `fetch`, `Date.now()` and the console become inputs and outputs of `Loader.LoadDictionary`. Logging is dropped.
- Asynchrony is left out. The two fetches are one joint outcome, and callbacks run to completion in the order given.
- Loader.LoadDictionary: a rejected storage read, a failed storage write after a successful fetch, a timestamp that is not a number, and JSON that is not a map from strings to strings are not modelled. The write is taken to succeed whenever it is issued.
- Keys.Lower: only A to Z are lower-cased, because `toLowerCase` follows the full Unicode case mapping, which is not modelled.
- Translate.Candidates: its length clauses (the lower-cased key as long as the normal key, and no key longer than the text) rest on the A-to-Z lower-casing; the full mapping can lengthen a text, as "İ" lower-cases to two code units.
- Translate.TranslateText: dictionary lookups see only the dictionary's own keys. Keys inherited from the JavaScript object prototype, such as "constructor", are not modelled.
- Tree.ProcessNode: elements are matched by the upper-case tag names the HTML document reports. Lower-case names in foreign content such as SVG are treated like any other tag.
- Observer.HandleBatch: the mutations the engine itself causes are not fed back as new batches. A later batch can be passed explicitly, and `Observer.HandleBatchAppend` composes them.
- Observer.ProcessRef: nodes are identified by their path, not by object identity. The single-text-child rewrite (content.js:78) replaces the element's text node, so in the browser a later record in the same batch that names the old text node finds it detached and skips it, while the model reaches the new text node and processes it. With a stable dictionary this makes no difference (`Observer.RevisitRewrittenChild`); with {"a": "b", "b": "c"} the model can translate such a text twice.
- Tree.ProcessNode: its contract is the frame, which bounds what any number of passes may change and so composes over a batch; it allows more than one pass does. The exact result of one pass is stated by `Tree.ProcessText`, `Tree.UnmarkedElementPass`, `Tree.SingleTextChildMarker` and `Tree.MarkedChildUntouched`.

=== FILE: keys.dfy ===
/** Key normalisation (`normalizeKey` in content.js) and the string helpers it and
    the dictionary lookup rely on: JavaScript's `trim`, the `\s` class and `toLowerCase`. */
module Keys {

  /** The characters JavaScript's `\s` class and `String.prototype.trim` treat as
      white space: the ECMAScript WhiteSpace and LineTerminator code points. */
  predicate IsSpace(c: char)
  {
    || c == ' ' || c == '\t' || c == '\n' || c == '\r'
    || c == '\U{000B}' || c == '\U{000C}' || c == '\U{00A0}' || c == '\U{1680}'
    || ('\U{2000}' <= c <= '\U{200A}')
    || c == '\U{2028}' || c == '\U{2029}' || c == '\U{202F}' || c == '\U{205F}'
    || c == '\U{3000}' || c == '\U{FEFF}'
  }

  /** The character class `[\t\n\r]` of the first replacement in `normalizeKey`. */
  predicate IsTabOrBreak(c: char)
  {
    c == '\t' || c == '\n' || c == '\r'
  }

  /** The character class `[:：]`: an ASCII or a fullwidth colon. */
  predicate IsColon(c: char)
  {
    c == ':' || c == '\U{FF1A}'
  }

  predicate EndsWithColon(s: string)
  {
    |s| > 0 && IsColon(s[|s| - 1])
  }

  /** No white space at either end. */
  predicate Trimmed(s: string)
  {
    s == [] || (!IsSpace(s[0]) && !IsSpace(s[|s| - 1]))
  }

  /** Every white-space character is a plain space (so in particular there is no tab, CR or LF). */
  predicate PlainSpacesOnly(s: string)
  {
    forall k :: 0 <= k < |s| ==> IsSpace(s[k]) ==> s[k] == ' '
  }

  /** No two adjacent white-space characters. */
  predicate SingleSpaced(s: string)
  {
    forall k :: 0 <= k < |s| - 1 ==> !(IsSpace(s[k]) && IsSpace(s[k + 1]))
  }

  predicate NoTabOrBreak(s: string)
  {
    forall k :: 0 <= k < |s| ==> !IsTabOrBreak(s[k])
  }

  /** The shape every normalised key has. */
  predicate KeyShaped(s: string)
  {
    PlainSpacesOnly(s) && SingleSpaced(s) && Trimmed(s)
  }

  /** `s.replace(/[class]+/g, ' ')` for the class `p`: every maximal run of characters
      in `p` becomes one space. `inRun` records that the character before `s` was
      already part of a run that has been replaced. */
  function CollapseRuns(s: string, p: char -> bool, inRun: bool): (r: string)
    ensures |r| <= |s|
    ensures forall k :: 0 <= k < |r| ==> r[k] == ' ' || !p(r[k])
    ensures forall k :: 0 <= k < |r| - 1 ==> !(p(r[k]) && p(r[k + 1]))
    ensures inRun && |r| > 0 ==> !p(r[0])
  {
    if s == [] then []
    else if p(s[0]) then (if inRun then [] else [' ']) + CollapseRuns(s[1..], p, true)
    else [s[0]] + CollapseRuns(s[1..], p, false)
  }

  /** `s.replace(/[:：]$/, '')`: without the multi-line flag `$` matches only at
      the very end, so at most one final colon is removed. */
  function DropTrailingColon(s: string): (r: string)
    ensures EndsWithColon(s) ==> r == s[..|s| - 1]
    ensures !EndsWithColon(s) ==> r == s
  {
    if EndsWithColon(s) then s[..|s| - 1] else s
  }

  /** The colon strip only ever shortens a text from the end, by one character, and it
      does so exactly when the text ends in a colon. */
  lemma DropTrailingColonPrefix(s: string)
    ensures var r := DropTrailingColon(s);
      r <= s && |s| - 1 <= |r| && (|r| < |s| <==> EndsWithColon(s))
  {
  }

  /** The number of white-space characters `s` starts with. */
  function LeadingSpace(s: string): (n: nat)
    ensures n <= |s|
    ensures forall k :: 0 <= k < n ==> IsSpace(s[k])
    ensures n < |s| ==> !IsSpace(s[n])
  {
    if |s| > 0 && IsSpace(s[0]) then 1 + LeadingSpace(s[1..]) else 0
  }

  /** The number of white-space characters `s` ends with. */
  function TrailingSpace(s: string): (n: nat)
    ensures n <= |s|
    ensures forall k :: |s| - n <= k < |s| ==> IsSpace(s[k])
    ensures n < |s| ==> !IsSpace(s[|s| - n - 1])
  {
    if |s| > 0 && IsSpace(s[|s| - 1]) then 1 + TrailingSpace(s[..|s| - 1]) else 0
  }

  /** `String.prototype.trim`: the part of `s` left after removing all white space
      from both ends; it starts right after the leading white space, and everything
      after it is white space. */
  function Trim(s: string): (r: string)
    ensures Trimmed(r)
    ensures LeadingSpace(s) + |r| <= |s|
    ensures r == s[LeadingSpace(s)..LeadingSpace(s) + |r|]
    ensures forall k :: LeadingSpace(s) + |r| <= k < |s| ==> IsSpace(s[k])
  {
    var i := LeadingSpace(s);
    var t := s[i..];
    var j := |t| - TrailingSpace(t);
    assert Trimmed(t[..j]) by {
      if j > 0 {
        assert t[..j][0] == s[i];
        assert t[..j][j - 1] == t[j - 1];
      }
    }
    assert forall k :: i + j <= k < |s| ==> IsSpace(s[k]) by {
      forall k | i + j <= k < |s|
        ensures IsSpace(s[k])
      {
        assert s[k] == t[k - i];
      }
    }
    assert t[..j] == s[i..i + j];
    t[..j]
  }

  /** ASCII upper case to lower case; every other character is kept. */
  function LowerChar(c: char): char
  {
    if 'A' <= c <= 'Z' then (c as int + 32) as char else c
  }

  /** `toLowerCase`, restricted to the ASCII letters. */
  function Lower(s: string): (r: string)
    ensures |r| == |s|
    ensures forall k :: 0 <= k < |s| ==> r[k] == LowerChar(s[k])
  {
    if s == [] then [] else [LowerChar(s[0])] + Lower(s[1..])
  }

  /** `normalizeKey`: tab/CR/LF runs become one space, white-space runs become one
      space, one final colon is dropped, and only then is the result trimmed. */
  function NormalizeKey(s: string): (r: string)
    ensures KeyShaped(r)
    ensures NoTabOrBreak(r)
    ensures |r| <= |s|
  {
    var c := CollapseRuns(CollapseRuns(s, IsTabOrBreak, false), IsSpace, false);
    var d := DropTrailingColon(c);
    ShapeSurvivesTrim(d);
    Trim(d)
  }

  // ---------------------------------------------------------------------------
  // Lemmas

  /** ASCII words joined by single spaces form a key: no ASCII letter is white space. */
  lemma AsciiWordsKeyShaped(s: string)
    requires s != [] && s[0] != ' ' && s[|s| - 1] != ' '
    requires forall k :: 0 <= k < |s| ==> s[k] == ' ' || 'A' <= s[k] <= 'z'
    requires forall k :: 0 <= k < |s| - 1 ==> !(s[k] == ' ' && s[k + 1] == ' ')
    ensures KeyShaped(s) && !EndsWithColon(s)
  {
    assert forall k :: 0 <= k < |s| ==> (IsSpace(s[k]) <==> s[k] == ' ');
  }

  /** Trimming a string whose white space is single plain spaces gives a key-shaped string. */
  lemma ShapeSurvivesTrim(s: string)
    requires PlainSpacesOnly(s) && SingleSpaced(s)
    ensures KeyShaped(Trim(s))
    ensures NoTabOrBreak(Trim(s))
  {
    var r := Trim(s);
    var i := LeadingSpace(s);
    assert forall k :: 0 <= k < |r| ==> r[k] == s[i + k];
  }

  /** Trimming is idempotent: a string without white space at its ends is its own trim. */
  lemma TrimOfTrimmed(s: string)
    requires Trimmed(s)
    ensures Trim(s) == s
  {
    assert LeadingSpace(s) == 0;
    assert TrailingSpace(s) == 0;
  }

  lemma TrimIdempotent(s: string)
    ensures Trim(Trim(s)) == Trim(s)
  {
    TrimOfTrimmed(Trim(s));
  }

  /** One step of `CollapseRuns` on a string with a known first character. */
  lemma CollapseCons(c: char, t: string, p: char -> bool, inRun: bool)
    ensures CollapseRuns([c] + t, p, inRun)
         == (if p(c) then (if inRun then [] else [' ']) else [c]) + CollapseRuns(t, p, p(c))
  {
    assert ([c] + t)[0] == c;
    assert ([c] + t)[1..] == t;
  }

  /** Collapsing leaves a string alone when its `p`-characters are already isolated
      plain spaces (and, inside a run, it does not start with one). */
  lemma {:induction false} CollapseFixedPoint(s: string, p: char -> bool, inRun: bool)
    requires p(' ')
    requires forall k :: 0 <= k < |s| ==> p(s[k]) ==> s[k] == ' '
    requires forall k :: 0 <= k < |s| - 1 ==> !(p(s[k]) && p(s[k + 1]))
    requires inRun ==> s == [] || !p(s[0])
    ensures CollapseRuns(s, p, inRun) == s
    decreases |s|
  {
    if s != [] {
      var t := s[1..];
      assert forall k :: 0 <= k < |t| ==> t[k] == s[k + 1];
      if p(s[0]) {
        CollapseFixedPoint(t, p, true);
      } else {
        CollapseFixedPoint(t, p, false);
      }
    }
  }

  /** The `[\t\n\r]+` replacement is subsumed by the `\s+` replacement that follows it:
      normalising with or without it gives the same string. */
  lemma {:induction false} BreakCollapseRedundant(s: string, inBreak: bool, inSpace: bool)
    requires inBreak ==> inSpace
    ensures CollapseRuns(CollapseRuns(s, IsTabOrBreak, inBreak), IsSpace, inSpace)
         == CollapseRuns(s, IsSpace, inSpace)
    decreases |s|
  {
    if s != [] {
      var t := s[1..];
      assert s == [s[0]] + t;
      CollapseCons(s[0], t, IsTabOrBreak, inBreak);
      CollapseCons(s[0], t, IsSpace, inSpace);
      if IsTabOrBreak(s[0]) {
        BreakCollapseRedundant(t, true, true);
        assert IsSpace(s[0]);
        if inBreak {
          assert CollapseRuns(s, IsTabOrBreak, inBreak) == CollapseRuns(t, IsTabOrBreak, true);
          assert CollapseRuns(s, IsSpace, inSpace) == CollapseRuns(t, IsSpace, true);
        } else {
          CollapseCons(' ', CollapseRuns(t, IsTabOrBreak, true), IsSpace, inSpace);
        }
      } else {
        BreakCollapseRedundant(t, false, IsSpace(s[0]));
        CollapseCons(s[0], CollapseRuns(t, IsTabOrBreak, false), IsSpace, inSpace);
      }
    }
  }

  /** Normalisation is a collapse of white-space runs, a colon strip and a trim. */
  lemma NormalizeKeySteps(s: string)
    ensures NormalizeKey(s) == Trim(DropTrailingColon(CollapseRuns(s, IsSpace, false)))
  {
    BreakCollapseRedundant(s, false, false);
  }

  /** A key-shaped string that does not end in a colon is its own normal form. */
  lemma NormalizeFixedPoint(s: string)
    requires KeyShaped(s) && !EndsWithColon(s)
    ensures NormalizeKey(s) == s
  {
    NormalizeKeySteps(s);
    CollapseFixedPoint(s, IsSpace, false);
    TrimOfTrimmed(s);
  }

  /** Exactly one final colon is stripped from an otherwise normal key:
      "Enter prompt:" normalises to "Enter prompt", and "a::" to "a:". */
  lemma NormalizeStripsOneColon(s: string, colon: char)
    requires KeyShaped(s) && IsColon(colon)
    ensures NormalizeKey(s + [colon]) == s
  {
    var t := s + [colon];
    assert CollapseRuns(t, IsSpace, false) == t by {
      assert forall k :: 0 <= k < |s| ==> t[k] == s[k];
      assert !IsSpace(t[|s|]);
      CollapseFixedPoint(t, IsSpace, false);
    }
    assert DropTrailingColon(t) == s by {
      assert t[..|t| - 1] == s;
    }
    NormalizeKeySteps(t);
    TrimOfTrimmed(s);
  }

  /** Normalisation is idempotent on `s` exactly when the normal form of `s` does not
      end in a colon; a normal form ending in a colon loses it when normalised again. */
  lemma NormalizeIdempotentIff(s: string)
    ensures NormalizeKey(NormalizeKey(s)) == NormalizeKey(s) <==> !EndsWithColon(NormalizeKey(s))
  {
    var r := NormalizeKey(s);
    if EndsWithColon(r) {
      NormalizeKeySteps(r);
      CollapseFixedPoint(r, IsSpace, false);
      assert |NormalizeKey(r)| < |r|;
    } else {
      NormalizeFixedPoint(r);
    }
  }

  /** `normalizeKey` is not idempotent: "a::" normalises to "a:", which normalises to "a". */
  lemma NormalizeNotIdempotent()
    ensures NormalizeKey("a::") == "a:"
    ensures NormalizeKey("a:") == "a"
  {
    assert "a::" == "a:" + [':'];
    assert "a:" == "a" + [':'];
    NormalizeStripsOneColon("a:", ':');
    NormalizeStripsOneColon("a", ':');
  }

  /** White space after a normal key is trimmed away, and only after the colon
      strip: whatever the key ends with, a colon included, survives. */
  lemma NormalizeTrailingSpace(s: string)
    requires KeyShaped(s) && s != []
    ensures NormalizeKey(s + [' ']) == s
  {
    var t := s + [' '];
    assert CollapseRuns(t, IsSpace, false) == t by {
      assert forall k :: 0 <= k < |s| ==> t[k] == s[k];
      assert t[|s|] == ' ';
      CollapseFixedPoint(t, IsSpace, false);
    }
    assert DropTrailingColon(t) == t;
    NormalizeKeySteps(t);
    TrimTrailingSpace(s);
  }

  /** Trimming a trimmed, non-empty string followed by one space gives the string back. */
  lemma TrimTrailingSpace(s: string)
    requires Trimmed(s) && s != []
    ensures Trim(s + [' ']) == s
  {
    var t := s + [' '];
    assert LeadingSpace(t) == 0;
    var r := Trim(t);
    assert |r| == |s|;
  }

  /** The colon is stripped only when it is the last character before trimming:
      in "a: " the space follows it, so it survives. */
  lemma NormalizeKeepsColonBeforeSpace()
    ensures NormalizeKey("a: ") == "a:"
  {
    assert "a: " == "a:" + [' '];
    NormalizeTrailingSpace("a:");
  }

  /** The characters of `s` that `p` does not match, in order. */
  function Unmatched(s: string, p: char -> bool): string
  {
    if s == [] then [] else (if p(s[0]) then [] else [s[0]]) + Unmatched(s[1..], p)
  }

  /** Collapsing keeps every character outside the runs, in order: once the matching
      characters (the inserted spaces among them) are filtered out, the text is unchanged. */
  lemma {:induction false} CollapseKeepsUnmatched(s: string, p: char -> bool, inRun: bool)
    requires p(' ')
    ensures Unmatched(CollapseRuns(s, p, inRun), p) == Unmatched(s, p)
    decreases |s|
  {
    if s != [] {
      var t := s[1..];
      assert s == [s[0]] + t;
      CollapseCons(s[0], t, p, inRun);
      CollapseKeepsUnmatched(t, p, p(s[0]));
      var rest := CollapseRuns(t, p, p(s[0]));
      var head: string := if p(s[0]) then (if inRun then [] else [' ']) else [s[0]];
      UnmatchedAppend(head, rest, p);
    }
  }

  lemma {:induction false} UnmatchedAppend(x: string, y: string, p: char -> bool)
    ensures Unmatched(x + y, p) == Unmatched(x, p) + Unmatched(y, p)
    decreases |x|
  {
    if x == [] {
      assert x + y == y;
    } else {
      assert (x + y)[0] == x[0];
      assert (x + y)[1..] == x[1..] + y;
      UnmatchedAppend(x[1..], y, p);
    }
  }

  /** Collapsing works piece by piece: the second piece is collapsed as if it followed
      the first, that is, inside a run exactly when the first ends with a matching character. */
  lemma {:induction false} CollapseAppend(x: string, y: string, p: char -> bool, inRun: bool)
    ensures CollapseRuns(x + y, p, inRun)
         == CollapseRuns(x, p, inRun) + CollapseRuns(y, p, if x == [] then inRun else p(x[|x| - 1]))
    decreases |x|
  {
    if x == [] {
      assert x + y == y;
    } else {
      CollapseAppendStep(x, y, p, inRun);
    }
  }

  /** The inductive step of `CollapseAppend`, for a non-empty first piece. */
  lemma {:induction false} CollapseAppendStep(x: string, y: string, p: char -> bool, inRun: bool)
    requires x != []
    ensures CollapseRuns(x + y, p, inRun) == CollapseRuns(x, p, inRun) + CollapseRuns(y, p, p(x[|x| - 1]))
    decreases |x|, 0
  {
    var t := x[1..];
    var head: string := if p(x[0]) then (if inRun then [] else [' ']) else [x[0]];
    var a := CollapseRuns(t, p, p(x[0]));
    var b := CollapseRuns(y, p, p(x[|x| - 1]));
    CollapseSplitFirst(x, y, p, inRun);
    calc {
      CollapseRuns(x + y, p, inRun);
      head + CollapseRuns(t + y, p, p(x[0]));
      { assert CollapseRuns(t + y, p, p(x[0])) == a + b by {
          if t == [] {
            assert |x| == 1 && a == [];
            assert t + y == y && a + b == b;
          } else {
            assert t[|t| - 1] == x[|x| - 1];
            CollapseAppendStep(t, y, p, p(x[0]));
          }
        }
      }
      head + (a + b);
      { ConcatAssoc(head, a, b); }
      (head + a) + b;
      CollapseRuns(x, p, inRun) + b;
    }
  }

  /** The first character of a non-empty piece is replaced the same way whether or not
      more text follows. */
  lemma CollapseSplitFirst(x: string, y: string, p: char -> bool, inRun: bool)
    requires x != []
    ensures var head: string := if p(x[0]) then (if inRun then [] else [' ']) else [x[0]];
      && CollapseRuns(x + y, p, inRun) == head + CollapseRuns(x[1..] + y, p, p(x[0]))
      && CollapseRuns(x, p, inRun) == head + CollapseRuns(x[1..], p, p(x[0]))
  {
    assert x + y == [x[0]] + (x[1..] + y);
    CollapseCons(x[0], x[1..] + y, p, inRun);
    assert x == [x[0]] + x[1..];
    CollapseCons(x[0], x[1..], p, inRun);
  }

  lemma ConcatAssoc(x: string, y: string, z: string)
    ensures x + (y + z) == (x + y) + z
  {
  }

  /** A text without matching characters is kept as it is. */
  lemma {:induction false} CollapseWord(w: string, p: char -> bool, inRun: bool)
    requires forall k :: 0 <= k < |w| ==> !p(w[k])
    ensures CollapseRuns(w, p, inRun) == w
    decreases |w|
  {
    if w != [] {
      assert w == [w[0]] + w[1..];
      CollapseCons(w[0], w[1..], p, inRun);
      CollapseWord(w[1..], p, false);
    }
  }

  /** A non-empty run of matching characters becomes one space, or nothing when it
      continues a run. */
  lemma {:induction false} CollapseRun(w: string, p: char -> bool, inRun: bool)
    requires w != [] && forall k :: 0 <= k < |w| ==> p(w[k])
    ensures CollapseRuns(w, p, inRun) == if inRun then [] else [' ']
    decreases |w|
  {
    assert w == [w[0]] + w[1..];
    CollapseCons(w[0], w[1..], p, inRun);
    if |w| > 1 {
      CollapseRun(w[1..], p, true);
    }
  }

  /** Each maximal run between two pieces of text becomes exactly one space, and the
      text on either side is collapsed on its own. */
  lemma CollapseMaximalRun(u: string, w: string, v: string, p: char -> bool, inRun: bool)
    requires u != [] && !p(u[|u| - 1])
    requires w != [] && forall k :: 0 <= k < |w| ==> p(w[k])
    requires v == [] || !p(v[0])
    ensures CollapseRuns(u + w + v, p, inRun) == CollapseRuns(u, p, inRun) + [' '] + CollapseRuns(v, p, false)
  {
    CollapseAppend(u + w, v, p, inRun);
    CollapseAppend(u, w, p, inRun);
    CollapseRun(w, p, false);
    assert (u + w)[|u + w| - 1] == w[|w| - 1];
    if v != [] {
      assert v == [v[0]] + v[1..];
      CollapseCons(v[0], v[1..], p, true);
      CollapseCons(v[0], v[1..], p, false);
    }
  }

  /** One space-run step: a non-space character then a white-space character. */
  lemma CollapsePair(a: char, w: char, t: string, inRun: bool)
    requires !IsSpace(a) && IsSpace(w)
    ensures CollapseRuns([a, w] + t, IsSpace, inRun) == [a, ' '] + CollapseRuns(t, IsSpace, true)
  {
    assert [a, w] + t == [a] + ([w] + t);
    CollapseCons(a, [w] + t, IsSpace, inRun);
    CollapseCons(w, t, IsSpace, false);
  }

  lemma CollapseExample(a: char, b: char)
    requires !IsSpace(a) && !IsSpace(b)
    ensures CollapseRuns([a, '\n', ' ', b, ':', ' '], IsSpace, false) == [a, ' ', b, ':', ' ']
  {
    var tail := CollapseRuns([':', ' '], IsSpace, false);
    assert tail == [':', ' '] by {
      CollapsePair(':', ' ', [], false);
    }
    var mid := CollapseRuns([' ', b, ':', ' '], IsSpace, true);
    assert mid == [b] + tail by {
      assert [' ', b, ':', ' '] == [' '] + ([b] + [':', ' ']);
      CollapseCons(' ', [b] + [':', ' '], IsSpace, true);
      CollapseCons(b, [':', ' '], IsSpace, true);
    }
    assert CollapseRuns([a, '\n', ' ', b, ':', ' '], IsSpace, false) == [a, ' '] + mid by {
      assert [a, '\n', ' ', b, ':', ' '] == [a, '\n'] + [' ', b, ':', ' '];
      CollapsePair(a, '\n', [' ', b, ':', ' '], false);
    }
  }

  /** "a b: " (collapsed already) normalises to "a b:": only the space is trimmed. */
  lemma CollapsedKeepsColon(a: char, b: char)
    requires !IsSpace(a) && !IsSpace(b)
    ensures Trim(DropTrailingColon([a, ' ', b, ':', ' '])) == [a, ' ', b, ':']
  {
    var withColon := [a, ' ', b, ':'];
    assert [a, ' ', b, ':', ' '] == withColon + [' '];
    assert !EndsWithColon(withColon + [' ']);
    TrimTrailingSpace(withColon);
  }

  /** Line breaks and doubled spaces are collapsed, yet they still decide whether a colon
      is stripped: "a\n b: " normalises to "a b:", while "a b:" normalises to "a b". */
  lemma SpacingDecidesColonStrip(a: char, b: char)
    requires !IsSpace(a) && !IsSpace(b)
    ensures NormalizeKey([a, '\n', ' ', b, ':', ' ']) == [a, ' ', b, ':']
    ensures NormalizeKey([a, ' ', b, ':']) == [a, ' ', b]
  {
    assert NormalizeKey([a, '\n', ' ', b, ':', ' ']) == [a, ' ', b, ':'] by {
      NormalizeKeySteps([a, '\n', ' ', b, ':', ' ']);
      CollapseExample(a, b);
      CollapsedKeepsColon(a, b);
    }
    assert NormalizeKey([a, ' ', b, ':']) == [a, ' ', b] by {
      var key := [a, ' ', b];
      assert KeyShaped(key);
      assert [a, ' ', b, ':'] == key + [':'];
      NormalizeStripsOneColon(key, ':');
    }
  }

  /** Once the trailing space is gone, the colon is stripped in both spellings: "a\n b:"
      and "a b:" have the same normal form. */
  lemma BreakBeforeColonKey(a: char, b: char)
    requires !IsSpace(a) && !IsSpace(b)
    ensures NormalizeKey([a, '\n', ' ', b, ':']) == NormalizeKey([a, ' ', b, ':'])
  {
    var tail: string := [b, ':'];
    CollapseWord(tail, IsSpace, true);
    assert CollapseRuns([a, '\n', ' ', b, ':'], IsSpace, false) == [a, ' '] + tail by {
      assert [a, '\n', ' ', b, ':'] == [a, '\n'] + ([' '] + tail);
      CollapsePair(a, '\n', [' '] + tail, false);
      CollapseCons(' ', tail, IsSpace, true);
    }
    assert CollapseRuns([a, ' ', b, ':'], IsSpace, false) == [a, ' '] + tail by {
      assert [a, ' ', b, ':'] == [a, ' '] + tail;
      CollapsePair(a, ' ', tail, false);
    }
    NormalizeKeySteps([a, '\n', ' ', b, ':']);
    NormalizeKeySteps([a, ' ', b, ':']);
  }

  /** Lower-casing does not touch white space, so it keeps a key key-shaped. */
  lemma LowerKeepsShape(s: string)
    requires KeyShaped(s)
    ensures KeyShaped(Lower(s))
  {
    var r := Lower(s);
    assert forall k :: 0 <= k < |s| ==> (IsSpace(r[k]) <==> IsSpace(s[k])) && (IsSpace(s[k]) ==> r[k] == s[k]);
  }
}

=== FILE: loader.dfy ===
/** The cache decision of `loadDictionary`: serve the stored dictionaries while they are
    fresh, otherwise fetch both and store them with the current time. Storage and the
    network are inputs: the stored record read before the call, the outcome of the two
    fetches, and the record the call asks storage to write. */
module Loader {
  import opened Wrappers
  import opened Translate

  /** Six hours, in milliseconds. */
  const CacheDuration: int := 6 * 60 * 60 * 1000

  /** The stored cache record. Every field may be missing from what storage returns;
      a missing record is read as the empty object, so as a record with no fields. */
  datatype CacheRecord = CacheRecord(timestamp: Option<int>, hans: Option<Dict>, hant: Option<Dict>)

  /** The joint outcome of the two fetches: both dictionaries, or a failure of either
      request or of either JSON parse. */
  datatype FetchOutcome = Fetched(hans: Dict, hant: Dict) | FetchFailed

  /** The dictionaries after the call, whether the network was used, and the record
      written to storage, if any. */
  datatype LoadResult = LoadResult(dicts: Dicts, fetched: bool, written: Option<CacheRecord>)

  const EmptyRecord := CacheRecord(None, None, None)

  /** `cache.timestamp` is truthy (present and not zero) and less than six hours old;
      a record exactly six hours old is stale, and one from the future is fresh. */
  predicate Fresh(cache: CacheRecord, now: int)
  {
    cache.timestamp.Some? && cache.timestamp.value != 0 && now - cache.timestamp.value < CacheDuration
  }

  /** `loadDictionary(forceReload)` as a state transition from the dictionaries held
      before the call. */
  function LoadDictionary(prior: Dicts, stored: Option<CacheRecord>, forceReload: bool, now: int, fetch: FetchOutcome): (r: LoadResult)
    ensures r.fetched <==> forceReload || !Fresh(stored.GetOr(EmptyRecord), now)
    ensures !r.fetched ==>
              r.written.None? && r.dicts == Dicts(stored.value.hans.GetOr(map[]), stored.value.hant.GetOr(map[]))
    ensures r.written.Some? <==> r.fetched && fetch.Fetched?
    ensures r.written.Some? ==> r.written.value == CacheRecord(Some(now), Some(r.dicts.hans), Some(r.dicts.hant))
    ensures r.fetched && fetch.Fetched? ==> r.dicts == Dicts(fetch.hans, fetch.hant)
    ensures r.fetched && fetch.FetchFailed? ==> r.dicts == prior
  {
    var cache := stored.GetOr(EmptyRecord);
    if !forceReload && Fresh(cache, now) then
      LoadResult(Dicts(cache.hans.GetOr(map[]), cache.hant.GetOr(map[])), false, None)
    else
      match fetch
      case FetchFailed => LoadResult(prior, true, None)
      case Fetched(hans, hant) =>
        LoadResult(Dicts(hans, hant), true, Some(CacheRecord(Some(now), Some(hans), Some(hant))))
  }

  /** The storage after the call: the written record if there is one, else what was there. */
  function StoredAfter(stored: Option<CacheRecord>, r: LoadResult): Option<CacheRecord>
  {
    if r.written.Some? then r.written else stored
  }

  // ---------------------------------------------------------------------------
  // Lemmas

  /** The freshness boundary: one millisecond short of six hours is fresh, exactly six
      hours and anything older is stale. */
  lemma FreshnessBoundary(now: int, t: int)
    requires t != 0
    ensures Fresh(CacheRecord(Some(t), None, None), now) <==> now < t + 21600000
  {
  }

  /** A successful refresh at a non-zero `now` (a load that fetched) is served from the cache,
      without fetching, by every later unforced load within six hours, whatever the network
      would do then. A refresh at time zero writes a falsy timestamp and is never served. */
  lemma RefreshServedUntilExpiry(prior: Dicts, stored: Option<CacheRecord>, force: bool, now: int, hans: Dict, hant: Dict,
                                 later: int, prior': Dicts, fetch': FetchOutcome)
    requires force || !Fresh(stored.GetOr(EmptyRecord), now)
    requires now != 0 && now <= later < now + CacheDuration
    ensures var r := LoadDictionary(prior, stored, force, now, Fetched(hans, hant));
      var r' := LoadDictionary(prior', StoredAfter(stored, r), false, later, fetch');
      !r'.fetched && r'.dicts == r.dicts && StoredAfter(StoredAfter(stored, r), r') == StoredAfter(stored, r)
  {
  }

  /** Once six hours have passed since the refresh, the next load goes to the network. */
  lemma RefreshExpires(prior: Dicts, stored: Option<CacheRecord>, force: bool, now: int, hans: Dict, hant: Dict,
                       later: int, prior': Dicts, fetch': FetchOutcome)
    requires force || !Fresh(stored.GetOr(EmptyRecord), now)
    requires later >= now + CacheDuration
    ensures var r := LoadDictionary(prior, stored, force, now, Fetched(hans, hant));
      LoadDictionary(prior', StoredAfter(stored, r), false, later, fetch').fetched
  {
  }

  /** A failed refresh changes nothing: the dictionaries held before the call and the
      stored record are both kept. */
  lemma FailedRefreshChangesNothing(prior: Dicts, stored: Option<CacheRecord>, force: bool, now: int)
    requires force || !Fresh(stored.GetOr(EmptyRecord), now)
    ensures var r := LoadDictionary(prior, stored, force, now, FetchFailed);
      r.dicts == prior && StoredAfter(stored, r) == stored
  {
  }

  /** A forced reload always goes to the network, however fresh the cache. */
  lemma ForceAlwaysFetches(prior: Dicts, stored: Option<CacheRecord>, now: int, fetch: FetchOutcome)
    ensures LoadDictionary(prior, stored, true, now, fetch).fetched
  {
  }

  /** With no stored record, or one whose timestamp is missing or zero, the cache is never used. */
  lemma MissingTimestampIsStale(prior: Dicts, stored: Option<CacheRecord>, now: int, fetch: FetchOutcome)
    requires stored.None? || stored.value.timestamp.None? || stored.value.timestamp == Some(0)
    ensures LoadDictionary(prior, stored, false, now, fetch).fetched
  {
  }

  /** When every fetch fails on the first run, the engine keeps its empty dictionaries,
      so every text passes through unchanged. */
  lemma FirstRunFailureTranslatesNothing(cfg: Config, stored: Option<CacheRecord>, force: bool, now: int, text: string)
    requires force || !Fresh(stored.GetOr(EmptyRecord), now)
    ensures var r := LoadDictionary(Dicts(map[], map[]), stored, force, now, FetchFailed);
      TranslateText(GetDict(cfg, r.dicts), text) == text
  {
    TranslateEmptyDict(text);
  }
}

=== FILE: observer.dfy ===
/** The entry guards of `processNode`, `translateAll`, and the MutationObserver callback
    as an ordered fold over a batch of mutation records. The body is an immutable tree;
    a record refers to nodes by their path from the body, or says that a node is null or
    no longer in the document. */
module Observer {
  import opened Wrappers
  import opened Translate
  import opened Tree

  /** Child indices from the body down to a node. */
  type Path = seq<nat>

  /** A node as the engine receives it: null, a node outside the body, or a node in the body. */
  datatype NodeRef = Null | Detached | InBody(path: Path)

  /** The mutation types the observer subscribes to. */
  datatype MutationKind = ChildList | CharacterData | Attributes

  /** A mutation record: its type, its target, and the nodes it added. */
  datatype MutationRecord = MutationRecord(kind: MutationKind, target: NodeRef, added: seq<NodeRef>)

  /** The node at `p` under `n`, if there is one. */
  function At(n: Node, p: Path): Option<Node>
    decreases p
  {
    if p == [] then Some(n)
    else if n.Element? && p[0] < |n.children| then At(n.children[p[0]], p[1..])
    else None
  }

  /** `n` with the node at `p` replaced by `x`. */
  function Replace(n: Node, p: Path, x: Node): (r: Node)
    requires At(n, p).Some?
    ensures At(r, p) == Some(x)
    decreases p
  {
    if p == [] then x
    else
      var c := Replace(n.children[p[0]], p[1..], x);
      var r := n.(children := n.children[p[0] := c]);
      assert r.children[p[0]] == c;
      r
  }

  /** `processNode(node)` with its guards: nothing happens when translation is disabled,
      when the node is null, or when the body does not contain it; otherwise the node is
      processed in place with the active dictionary. */
  function ProcessRef(cfg: Config, dicts: Dicts, body: Node, ref: NodeRef): (r: Node)
    ensures Frame(GetDict(cfg, dicts), body, r)
    ensures !cfg.enabled || !ref.InBody? || At(body, ref.path).None? ==> r == body
    ensures cfg.enabled && ref.InBody? && At(body, ref.path).Some? ==>
              At(r, ref.path) == Some(ProcessNode(GetDict(cfg, dicts), At(body, ref.path).value))
  {
    var d := GetDict(cfg, dicts);
    if !cfg.enabled then FrameRefl(d, body); body
    else match ref
      case InBody(p) =>
        (match At(body, p)
         case Some(x) => ReplaceWithinFrame(d, body, p, ProcessNode(d, x)); Replace(body, p, ProcessNode(d, x))
         case None => FrameRefl(d, body); body)
      case _ => FrameRefl(d, body); body
  }

  /** `processNode` on each node of `refs`, in order. */
  function ProcessAll(cfg: Config, dicts: Dicts, body: Node, refs: seq<NodeRef>): (r: Node)
    ensures Frame(GetDict(cfg, dicts), body, r)
    decreases |refs|
  {
    if refs == [] then FrameRefl(GetDict(cfg, dicts), body); body
    else
      var b := ProcessRef(cfg, dicts, body, refs[0]);
      var r := ProcessAll(cfg, dicts, b, refs[1..]);
      FrameTrans(GetDict(cfg, dicts), body, b, r);
      r
  }

  /** Whether a record's target is itself processed: for text and attribute changes only. */
  predicate RevisitsTarget(m: MutationRecord)
  {
    m.kind == CharacterData || m.kind == Attributes
  }

  /** One record of the callback: every added node, then the target for a text or
      attribute change. */
  function HandleRecord(cfg: Config, dicts: Dicts, body: Node, m: MutationRecord): (r: Node)
    ensures Frame(GetDict(cfg, dicts), body, r)
  {
    var b := ProcessAll(cfg, dicts, body, m.added);
    if RevisitsTarget(m) then
      var r := ProcessRef(cfg, dicts, b, m.target);
      FrameTrans(GetDict(cfg, dicts), body, b, r);
      r
    else b
  }

  /** The MutationObserver callback: the records of a batch in order. */
  function HandleBatch(cfg: Config, dicts: Dicts, body: Node, batch: seq<MutationRecord>): (r: Node)
    ensures Frame(GetDict(cfg, dicts), body, r)
    decreases |batch|
  {
    if batch == [] then FrameRefl(GetDict(cfg, dicts), body); body
    else
      var b := HandleRecord(cfg, dicts, body, batch[0]);
      var r := HandleBatch(cfg, dicts, b, batch[1..]);
      FrameTrans(GetDict(cfg, dicts), body, b, r);
      r
  }

  /** `translateAll`: process the whole body when translation is enabled. */
  function TranslateAll(cfg: Config, dicts: Dicts, body: Node): (r: Node)
    ensures cfg.enabled ==> r == ProcessNode(GetDict(cfg, dicts), body)
    ensures !cfg.enabled ==> r == body
  {
    if !cfg.enabled then body else ProcessRef(cfg, dicts, body, InBody([]))
  }

  /** Reference order of visits for one record: the added nodes, then the target when
      the record is a text or attribute change. */
  function Visits(m: MutationRecord): seq<NodeRef>
  {
    m.added + (if RevisitsTarget(m) then [m.target] else [])
  }

  /** Reference order of visits for a batch: each record's visits, record by record. */
  function BatchVisits(batch: seq<MutationRecord>): seq<NodeRef>
  {
    if batch == [] then [] else Visits(batch[0]) + BatchVisits(batch[1..])
  }

  // ---------------------------------------------------------------------------
  // Lemmas

  /** Replacing a node by one within the frame keeps the whole body within the frame. */
  lemma {:induction false} ReplaceWithinFrame(d: Dict, n: Node, p: Path, x: Node)
    requires At(n, p).Some? && Frame(d, At(n, p).value, x)
    ensures Frame(d, n, Replace(n, p, x))
    decreases p
  {
    if p != [] {
      var i := p[0];
      ReplaceWithinFrame(d, n.children[i], p[1..], x);
      var r := Replace(n, p, x);
      forall j | 0 <= j < |n.children| ensures Frame(d, n.children[j], r.children[j]) {
        if j != i {
          FrameRefl(d, n.children[j]);
        }
      }
      FrameRefl(d, n);
    }
  }

  /** Replacing the node at `p` leaves every node that is neither an ancestor nor a
      descendant of it where and as it was. */
  lemma {:induction false} ReplaceLocal(n: Node, p: Path, x: Node, q: Path)
    requires At(n, p).Some?
    requires !(p <= q) && !(q <= p)
    ensures At(Replace(n, p, x), q) == At(n, q)
    decreases p
  {
    var r := Replace(n, p, x);
    var i := p[0];
    assert q != [];
    if q[0] == i {
      assert !(p[1..] <= q[1..]) && !(q[1..] <= p[1..]) by {
        assert p == [i] + p[1..] && q == [i] + q[1..];
      }
      ReplaceLocal(n.children[i], p[1..], x, q[1..]);
    }
  }

  /** Replacing the same node twice keeps only the second replacement. */
  lemma {:induction false} ReplaceTwice(n: Node, p: Path, x: Node, y: Node)
    requires At(n, p).Some?
    ensures Replace(Replace(n, p, x), p, y) == Replace(n, p, y)
    decreases p
  {
    if p != [] {
      ReplaceTwice(n.children[p[0]], p[1..], x, y);
    }
  }

  /** Processing a node in the body changes nothing outside its subtree and its
      ancestors: an already marked sibling, for one, is not revisited. */
  lemma ProcessRefLocal(cfg: Config, dicts: Dicts, body: Node, p: Path, q: Path)
    requires !(p <= q) && !(q <= p)
    ensures At(ProcessRef(cfg, dicts, body, InBody(p)), q) == At(body, q)
  {
    if cfg.enabled && At(body, p).Some? {
      ReplaceLocal(body, p, ProcessNode(GetDict(cfg, dicts), At(body, p).value), q);
    }
  }

  /** An element without its children: its tag, attributes and markers. */
  function Shell(n: Node): Node
  {
    if n.Element? then n.(children := []) else n
  }

  /** Looking up a path in two steps. */
  lemma {:induction false} AtAppend(n: Node, p: Path, q: Path)
    ensures At(n, p + q) == if At(n, p).Some? then At(At(n, p).value, q) else None
    decreases p
  {
    if p == [] {
      assert p + q == q;
    } else {
      assert (p + q)[0] == p[0] && (p + q)[1..] == p[1..] + q;
      if n.Element? && p[0] < |n.children| {
        AtAppend(n.children[p[0]], p[1..], q);
      }
    }
  }

  /** Putting back the node that is already at `p` changes nothing. */
  lemma {:induction false} ReplaceSame(n: Node, p: Path)
    requires At(n, p).Some?
    ensures Replace(n, p, At(n, p).value) == n
    decreases p
  {
    if p != [] {
      ReplaceSame(n.children[p[0]], p[1..]);
      assert n.children[p[0] := n.children[p[0]]] == n.children;
    }
  }

  /** Replacing a node leaves the tag, attributes and markers of each of its ancestors
      as they were; only the children along the path change. */
  lemma {:induction false} ReplaceKeepsAncestors(n: Node, p: Path, x: Node, q: Path)
    requires At(n, p).Some? && q < p
    ensures At(n, q).Some? && At(Replace(n, p, x), q).Some?
    ensures Shell(At(Replace(n, p, x), q).value) == Shell(At(n, q).value)
    decreases p
  {
    if q != [] {
      assert q[0] == p[0] && q[1..] < p[1..];
      ReplaceKeepsAncestors(n.children[p[0]], p[1..], x, q[1..]);
    }
  }

  /** Processing a node leaves the tag, attributes and markers of every ancestor as they
      were: `processNode` changes only the node it is given and what lies below it. */
  lemma ProcessRefKeepsAncestors(cfg: Config, dicts: Dicts, body: Node, p: Path, q: Path)
    requires q < p
    ensures var r := ProcessRef(cfg, dicts, body, InBody(p));
      At(body, q).Some? ==> At(r, q).Some? && Shell(At(r, q).value) == Shell(At(body, q).value)
  {
    if cfg.enabled && At(body, p).Some? {
      ReplaceKeepsAncestors(body, p, ProcessNode(GetDict(cfg, dicts), At(body, p).value), q);
    }
  }

  /** The single-text-child rewrite replaces the element's text node by a new one, so a
      later record naming the old text node finds it detached and skips it. The model
      refers to nodes by path and reaches the new text node instead; with a stable
      dictionary processing that node again changes nothing, so both agree. */
  lemma RevisitRewrittenChild(cfg: Config, dicts: Dicts, body: Node, p: Path)
    requires Stable(GetDict(cfg, dicts))
    requires At(body, p).Some? && At(body, p).value.Element?
    requires !IsSkippedTag(At(body, p).value.tag) && !At(body, p).value.translated
    requires |At(body, p).value.children| == 1 && At(body, p).value.children[0].Text?
    ensures var b := ProcessRef(cfg, dicts, body, InBody(p));
      ProcessRef(cfg, dicts, b, InBody(p + [0])) == b
  {
    var b := ProcessRef(cfg, dicts, body, InBody(p));
    if cfg.enabled {
      var d := GetDict(cfg, dicts);
      var x := At(body, p).value;
      var y := ProcessNode(d, x);
      assert At(b, p) == Some(y);
      SingleTextChildProcessed(d, x);
      AtAppend(b, p, [0]);
      assert At(b, p + [0]) == Some(y.children[0]);
      ProcessIdempotent(d, x.children[0]);
      ReplaceSame(b, p + [0]);
    }
  }

  /** With a stable dictionary processing the same node twice is processing it once. */
  lemma ProcessRefTwice(cfg: Config, dicts: Dicts, body: Node, ref: NodeRef)
    requires Stable(GetDict(cfg, dicts))
    ensures ProcessRef(cfg, dicts, ProcessRef(cfg, dicts, body, ref), ref) == ProcessRef(cfg, dicts, body, ref)
  {
    if cfg.enabled && ref.InBody? && At(body, ref.path).Some? {
      var d := GetDict(cfg, dicts);
      var p := ref.path;
      var x := At(body, p).value;
      ProcessIdempotent(d, x);
      ReplaceTwice(body, p, ProcessNode(d, x), ProcessNode(d, ProcessNode(d, x)));
    }
  }

  /** Processing a list of nodes in two parts is processing the first part, then the second. */
  lemma {:induction false} ProcessAllAppend(cfg: Config, dicts: Dicts, body: Node, xs: seq<NodeRef>, ys: seq<NodeRef>)
    ensures ProcessAll(cfg, dicts, body, xs + ys) == ProcessAll(cfg, dicts, ProcessAll(cfg, dicts, body, xs), ys)
    decreases |xs|
  {
    if xs == [] {
      assert xs + ys == ys;
    } else {
      assert (xs + ys)[0] == xs[0];
      assert (xs + ys)[1..] == xs[1..] + ys;
      ProcessAllAppend(cfg, dicts, ProcessRef(cfg, dicts, body, xs[0]), xs[1..], ys);
    }
  }

  /** One record processes exactly its visits, in order. */
  lemma HandleRecordVisits(cfg: Config, dicts: Dicts, body: Node, m: MutationRecord)
    ensures HandleRecord(cfg, dicts, body, m) == ProcessAll(cfg, dicts, body, Visits(m))
  {
    ProcessAllAppend(cfg, dicts, body, m.added, if RevisitsTarget(m) then [m.target] else []);
    var b := ProcessAll(cfg, dicts, body, m.added);
    if RevisitsTarget(m) {
      assert [m.target][1..] == [];
    }
  }

  /** A batch processes exactly the records' visits, record after record and, within a
      record, the added nodes before the target. */
  lemma {:induction false} HandleBatchVisits(cfg: Config, dicts: Dicts, body: Node, batch: seq<MutationRecord>)
    ensures HandleBatch(cfg, dicts, body, batch) == ProcessAll(cfg, dicts, body, BatchVisits(batch))
    decreases |batch|
  {
    if batch != [] {
      HandleRecordVisits(cfg, dicts, body, batch[0]);
      var b := HandleRecord(cfg, dicts, body, batch[0]);
      HandleBatchVisits(cfg, dicts, b, batch[1..]);
      ProcessAllAppend(cfg, dicts, body, Visits(batch[0]), BatchVisits(batch[1..]));
    }
  }

  /** Handling two batches one after the other is handling their concatenation. */
  lemma {:induction false} HandleBatchAppend(cfg: Config, dicts: Dicts, body: Node, xs: seq<MutationRecord>, ys: seq<MutationRecord>)
    ensures HandleBatch(cfg, dicts, body, xs + ys) == HandleBatch(cfg, dicts, HandleBatch(cfg, dicts, body, xs), ys)
    decreases |xs|
  {
    if xs == [] {
      assert xs + ys == ys;
    } else {
      assert (xs + ys)[0] == xs[0];
      assert (xs + ys)[1..] == xs[1..] + ys;
      HandleBatchAppend(cfg, dicts, HandleRecord(cfg, dicts, body, xs[0]), xs[1..], ys);
    }
  }

  /** A child-list record never processes its target, only the nodes it added. */
  lemma ChildListIgnoresTarget(cfg: Config, dicts: Dicts, body: Node, m: MutationRecord, other: NodeRef)
    requires m.kind == ChildList
    ensures HandleRecord(cfg, dicts, body, m) == HandleRecord(cfg, dicts, body, m.(target := other))
  {
  }

  /** With translation disabled no batch changes anything. */
  lemma {:induction false} DisabledBatchChangesNothing(cfg: Config, dicts: Dicts, body: Node, batch: seq<MutationRecord>)
    requires !cfg.enabled
    ensures HandleBatch(cfg, dicts, body, batch) == body
  {
    HandleBatchVisits(cfg, dicts, body, batch);
    DisabledProcessAll(cfg, dicts, body, BatchVisits(batch));
  }

  lemma {:induction false} DisabledProcessAll(cfg: Config, dicts: Dicts, body: Node, refs: seq<NodeRef>)
    requires !cfg.enabled
    ensures ProcessAll(cfg, dicts, body, refs) == body
    decreases |refs|
  {
    if refs != [] {
      DisabledProcessAll(cfg, dicts, body, refs[1..]);
    }
  }

  /** Null and detached nodes are skipped: a batch that names no node in the body
      changes nothing. */
  lemma {:induction false} OutsideRefsChangeNothing(cfg: Config, dicts: Dicts, body: Node, refs: seq<NodeRef>)
    requires forall i :: 0 <= i < |refs| ==> !refs[i].InBody?
    ensures ProcessAll(cfg, dicts, body, refs) == body
    decreases |refs|
  {
    if refs != [] {
      OutsideRefsChangeNothing(cfg, dicts, body, refs[1..]);
    }
  }

  /** With a stable dictionary, running `translateAll` again over its own result changes nothing. */
  lemma TranslateAllIdempotent(cfg: Config, dicts: Dicts, body: Node)
    requires Stable(GetDict(cfg, dicts))
    ensures TranslateAll(cfg, dicts, TranslateAll(cfg, dicts, body)) == TranslateAll(cfg, dicts, body)
  {
    if cfg.enabled {
      ProcessIdempotent(GetDict(cfg, dicts), body);
    }
  }
}

=== FILE: translate.dfy ===
/** The active dictionary (`getDict`) and the lookup with fallback (`translateText`). */
module Translate {
  import opened Wrappers
  import opened Keys

  /** A dictionary: source string to translated string. */
  type Dict = map<string, string>

  /** The engine's configuration; `lang` is whatever string was stored, not only the
      two known variants "zh-Hans" and "zh-Hant". */
  datatype Config = Config(enabled: bool, lang: string)

  /** The two loaded dictionaries, simplified and traditional script. */
  datatype Dicts = Dicts(hans: Dict, hant: Dict)

  /** `getDict`: the traditional-script dictionary exactly when the language is "zh-Hant";
      any other language string selects the simplified-script one. */
  function GetDict(cfg: Config, dicts: Dicts): (d: Dict)
    ensures cfg.lang == "zh-Hant" ==> d == dicts.hant
    ensures cfg.lang != "zh-Hant" ==> d == dicts.hans
  {
    if cfg.lang == "zh-Hant" then dicts.hant else dicts.hans
  }

  /** `dict[k]` is truthy: the key is present and its value is not the empty string. */
  predicate Hit(d: Dict, k: string)
  {
    k in d && d[k] != ""
  }

  /** The keys tried, in order: the trimmed text, its normal form, and the
      lower-cased normal form. */
  function Candidates(text: string): (keys: seq<string>)
    ensures |keys| == 3
    ensures Trimmed(keys[0]) && KeyShaped(keys[1]) && KeyShaped(keys[2])
    ensures |keys[2]| == |keys[1]| <= |keys[0]| <= |text|
  {
    var cleaned := Trim(text);
    LowerKeepsShape(NormalizeKey(cleaned));
    [cleaned, NormalizeKey(cleaned), Lower(NormalizeKey(cleaned))]
  }

  /** No candidate key of `text` has a truthy value. */
  predicate Missed(d: Dict, text: string)
  {
    var keys := Candidates(text);
    !Hit(d, keys[0]) && !Hit(d, keys[1]) && !Hit(d, keys[2])
  }

  /** `translateText`: the first truthy value among the three candidate keys, or the
      original, untrimmed text when none has one. */
  function TranslateText(d: Dict, text: string): (r: string)
    ensures r == text || (r != "" && r in d.Values)
  {
    var cleaned := Trim(text);
    var normalized := NormalizeKey(cleaned);
    var lower := Lower(normalized);
    if Hit(d, cleaned) then d[cleaned]
    else if Hit(d, normalized) then d[normalized]
    else if Hit(d, lower) then d[lower]
    else text
  }

  /** Reference reading of `a || b || c || text`: the value of the first key in `keys`
      with a truthy entry, if any. */
  function FirstHit(d: Dict, keys: seq<string>): (r: Option<string>)
    ensures r.Some? ==> r.value != "" && r.value in d.Values
    ensures r.None? <==> forall i :: 0 <= i < |keys| ==> !Hit(d, keys[i])
  {
    if keys == [] then None
    else if Hit(d, keys[0]) then Some(d[keys[0]])
    else FirstHit(d, keys[1..])
  }

  /** A dictionary whose translations translate to themselves: looking a translation up
      again gives it back. */
  predicate Stable(d: Dict)
  {
    forall v {:trigger TranslateText(d, v)} :: v in d.Values && v != "" ==> TranslateText(d, v) == v
  }

  // ---------------------------------------------------------------------------
  // Lemmas

  /** `translateText` agrees with the reference: the first truthy candidate, else the text. */
  lemma TranslateIsFirstHit(d: Dict, text: string)
    ensures TranslateText(d, text) == FirstHit(d, Candidates(text)).GetOr(text)
  {
    var keys := Candidates(text);
    if !Hit(d, keys[0]) {
      assert FirstHit(d, keys) == FirstHit(d, keys[1..]);
      assert keys[1..][0] == keys[1];
      if !Hit(d, keys[1]) {
        assert FirstHit(d, keys[1..]) == FirstHit(d, keys[2..]);
        assert keys[2..][0] == keys[2];
        if !Hit(d, keys[2]) {
          assert FirstHit(d, keys[2..]) == FirstHit(d, keys[3..]);
        }
      }
    }
  }

  /** On a total miss the original, untrimmed text comes back; otherwise a non-empty
      dictionary value does. */
  lemma TranslateMissOrHit(d: Dict, text: string)
    ensures Missed(d, text) ==> TranslateText(d, text) == text
    ensures !Missed(d, text) ==> TranslateText(d, text) != "" && TranslateText(d, text) in d.Values
  {
  }

  /** Surrounding white space matters only on a miss: the same candidates are tried for
      the text and for its trim, so a hit gives the same translation for both. */
  lemma TranslateIgnoresOuterSpace(d: Dict, text: string)
    ensures Candidates(Trim(text)) == Candidates(text)
    ensures Missed(d, Trim(text)) <==> Missed(d, text)
    ensures !Missed(d, text) ==> TranslateText(d, Trim(text)) == TranslateText(d, text)
  {
    assert Candidates(Trim(text)) == Candidates(text) by {
      TrimIdempotent(text);
    }
    TranslateMissOrHit(d, text);
    TranslateMissOrHit(d, Trim(text));
  }

  /** Nothing is translated with an empty dictionary: every text passes through. */
  lemma TranslateEmptyDict(text: string)
    ensures TranslateText(map[], text) == text
  {
  }

  /** With a stable dictionary a translation is a fixed point of `translateText`. */
  lemma TranslateTwice(d: Dict, text: string)
    requires Stable(d)
    ensures TranslateText(d, TranslateText(d, text)) == TranslateText(d, text)
  {
    TranslateMissOrHit(d, text);
  }

  /** Without stability translating twice may go further: "a" becomes "b", then "c". */
  lemma TranslateTwiceCounterexample()
    ensures var d := map["a" := "b", "b" := "c"];
      TranslateText(d, "a") == "b" && TranslateText(d, "b") == "c"
  {
    var d := map["a" := "b", "b" := "c"];
    TrimOfTrimmed("a");
    TrimOfTrimmed("b");
    assert Hit(d, Trim("a")) && d[Trim("a")] == "b";
    assert Hit(d, Trim("b")) && d[Trim("b")] == "c";
  }

  /** A key stored without its final colon matches text that has one
      ("Enter prompt:" finds "Enter prompt") when the text itself is not a key. */
  lemma ColonlessKeyMatches(d: Dict, key: string, colon: char)
    requires KeyShaped(key) && IsColon(colon)
    requires Hit(d, key) && !Hit(d, key + [colon])
    ensures TranslateText(d, key + [colon]) == d[key]
  {
    var t := key + [colon];
    assert Trimmed(t);
    TrimOfTrimmed(t);
    NormalizeStripsOneColon(key, colon);
  }

  /** A lower-case key matches text that differs from it only in upper-case letters,
      when neither the text nor its normal form is a key. */
  lemma CaseFoldedKeyMatches(d: Dict, text: string)
    requires KeyShaped(text) && !EndsWithColon(text)
    requires !Hit(d, text) && Hit(d, Lower(text))
    ensures TranslateText(d, text) == d[Lower(text)]
  {
    TrimOfTrimmed(text);
    NormalizeFixedPoint(text);
  }

  /** `translateText` trims before normalising, so "a\n b: " and "a b:" reach the same
      normal key even though `normalizeKey` alone keeps the colon of the first. */
  lemma TrimmedSpacingSharesKey(a: char, b: char)
    requires !IsSpace(a) && !IsSpace(b)
    ensures Candidates([a, '\n', ' ', b, ':', ' '])[1] == Candidates([a, ' ', b, ':'])[1]
  {
    var inner: string := [a, '\n', ' ', b, ':'];
    assert [a, '\n', ' ', b, ':', ' '] == inner + [' '];
    TrimTrailingSpace(inner);
    TrimOfTrimmed([a, ' ', b, ':']);
    BreakBeforeColonKey(a, b);
  }

  /** An exact key is found: "Submit" with {"Submit": "提交"} gives "提交". */
  lemma ExactKeyExample()
    ensures TranslateText(map["Submit" := "提交"], "Submit") == "提交"
  {
    TrimOfTrimmed("Submit");
  }

  /** The case-folded fallback: "Submit" with {"submit": "提交"} gives "提交". */
  lemma CaseFoldedKeyExample()
    ensures TranslateText(map["submit" := "提交"], "Submit") == "提交"
  {
    var d := map["submit" := "提交"];
    assert Lower("Submit") == "submit";
    AsciiWordsKeyShaped("Submit");
    CaseFoldedKeyMatches(d, "Submit");
  }
}

=== FILE: tree.dfy ===
/** The tree rewrite of `processNode`: text nodes, five descriptive attributes and the
    single-text-child shortcut, with the `translated` marker that stops a second visit.
    The document is an immutable tree; the attachment and enabled checks that guard the
    entry point live with the mutation handler. */
module Tree {
  import opened Translate

  /** A document node. `translated` and `translatedAttr` are the element's
      `data-translated` and `data-translated-attr` markers; `OtherNode` is any node
      that is neither text nor an element (a comment, for one). */
  datatype Node =
    | Text(content: string)
    | Element(tag: string, attrs: map<string, string>, translated: bool, translatedAttr: bool, children: seq<Node>)
    | OtherNode(data: string)

  /** The attributes that are translated, in the order they are visited. */
  const TranslatableAttrs: seq<string> := ["title", "aria-label", "alt", "placeholder", "value"]

  /** Membership in the allow list. */
  predicate IsTranslatableAttr(name: string)
  {
    name in TranslatableAttrs
  }

  /** Elements whose content is never shown and is never translated. */
  predicate IsSkippedTag(tag: string)
  {
    tag == "SCRIPT" || tag == "STYLE" || tag == "NOSCRIPT"
  }

  predicate Distinct(names: seq<string>)
  {
    forall i, j :: 0 <= i < j < |names| ==> names[i] != names[j]
  }

  /** `after` is `before` or a non-empty translation from `d`. */
  predicate Rewritten(d: Dict, before: string, after: string)
  {
    after == before || (after != "" && after in d.Values)
  }

  /** What one attribute becomes: a non-empty value is replaced by its translation
      when that is truthy and differs from it; anything else is kept. */
  function AttrValue(d: Dict, v: string): (r: string)
    ensures Rewritten(d, v, r)
    ensures v == "" ==> r == v
    ensures r != v ==> r == TranslateText(d, v)
    ensures v != "" && TranslateText(d, v) != v ==> r == TranslateText(d, v)
  {
    if v != "" then
      var t := TranslateText(d, v);
      if t != "" && t != v then t else v
    else v
  }

  /** The attributes after a pass, and whether any of them was set. */
  datatype AttrResult = AttrResult(attrs: map<string, string>, changed: bool)

  /** The `translateAttributes` loop over `names`: present attributes among `names` are
      rewritten, no attribute is added or removed, the others are kept, and `changed`
      (which sets `data-translated-attr`) holds exactly when some value changed. */
  function TranslateAttrs(d: Dict, names: seq<string>, attrs: map<string, string>): (r: AttrResult)
    requires Distinct(names)
    ensures r.attrs.Keys == attrs.Keys
    ensures forall k :: k in attrs && k !in names ==> r.attrs[k] == attrs[k]
    ensures forall k :: k in attrs && k in names ==> r.attrs[k] == AttrValue(d, attrs[k])
    ensures r.changed <==> r.attrs != attrs
  {
    if names == [] then AttrResult(attrs, false)
    else
      var a := names[0];
      var step := if a in attrs && AttrValue(d, attrs[a]) != attrs[a]
        then AttrResult(attrs[a := AttrValue(d, attrs[a])], true)
        else AttrResult(attrs, false);
      assert forall i :: 0 <= i < |names| - 1 ==> names[1..][i] == names[i + 1];
      var rest := TranslateAttrs(d, names[1..], step.attrs);
      assert a !in names[1..];
      assert step.changed ==> rest.attrs[a] != attrs[a];
      AttrResult(rest.attrs, step.changed || rest.changed)
  }

  /** `translateAttributes` on an element's attributes: the allow-listed attributes are
      rewritten, all others are kept, none is added or removed, and `changed` holds
      exactly when some value changed. */
  function AttributePass(d: Dict, attrs: map<string, string>): (r: AttrResult)
    ensures r.attrs.Keys == attrs.Keys
    ensures forall k :: k in attrs ==> r.attrs[k] == if IsTranslatableAttr(k) then AttrValue(d, attrs[k]) else attrs[k]
    ensures r.changed <==> r.attrs != attrs
  {
    TranslatableAttrsDistinct();
    TranslateAttrs(d, TranslatableAttrs, attrs)
  }

  /** `processNode` below the entry guards: text is replaced by its translation when that
      differs; skipped and already marked elements are left alone; other elements get
      their attributes translated and then either their single text child translated
      (setting `translated` when it changed) or each child processed. Every change it
      makes stays within `Frame`. */
  function ProcessNode(d: Dict, n: Node): (r: Node)
    ensures Frame(d, n, r)
    decreases n, 2
  {
    match n
    case Text(content) =>
      var t := TranslateText(d, content);
      if t != "" && t != content then Text(t) else n
    case OtherNode(_) => n
    case Element(_, _, _, _, _) => ProcessElement(d, n)
  }

  /** The element case of `processNode`: skipped and marked elements are left alone. */
  function ProcessElement(d: Dict, n: Node): (r: Node)
    requires n.Element?
    ensures IsSkippedTag(n.tag) || n.translated ==> r == n
    ensures Frame(d, n, r)
    decreases n, 1
  {
    if IsSkippedTag(n.tag) || n.translated then FrameRefl(d, n); n
    else RewriteElement(d, n)
  }

  /** An element that is rewritten: the attribute pass, then the single text child or
      each child in turn. */
  function RewriteElement(d: Dict, n: Node): (r: Node)
    requires n.Element?
    ensures Frame(d, n, r)
    decreases n, 0
  {
    var ar := AttributePass(d, n.attrs);
    var markedAttr := n.translatedAttr || ar.changed;
    if |n.children| == 1 && n.children[0].Text? then
      RewriteSingleText(d, n, ar.attrs, markedAttr)
    else
      var cs := ProcessChildren(d, n.children);
      ElementWithinFrame(d, n, ar.attrs, n.translated, markedAttr, cs);
      Element(n.tag, ar.attrs, n.translated, markedAttr, cs)
  }

  /** The single-text-child shortcut: the element's text is replaced by its translation
      when that is truthy and differs, and only then is the element marked translated. */
  function RewriteSingleText(d: Dict, n: Node, attrs: map<string, string>, markedAttr: bool): (r: Node)
    requires n.Element? && |n.children| == 1 && n.children[0].Text?
    requires attrs == AttributePass(d, n.attrs).attrs && (n.translatedAttr ==> markedAttr)
    ensures Frame(d, n, r)
  {
    var original := n.children[0].content;
    var t := TranslateText(d, original);
    if t != "" && t != original then
      ElementWithinFrame(d, n, attrs, true, markedAttr, [Text(t)]);
      Element(n.tag, attrs, true, markedAttr, [Text(t)])
    else
      AttrsWithinFrame(d, n, attrs, markedAttr);
      n.(attrs := attrs, translatedAttr := markedAttr)
  }

  /** Each child processed in turn. */
  function ProcessChildren(d: Dict, cs: seq<Node>): (r: seq<Node>)
    ensures |r| == |cs|
    ensures forall i :: 0 <= i < |cs| ==> r[i] == ProcessNode(d, cs[i])
    decreases cs, 3
  {
    if cs == [] then [] else [ProcessNode(d, cs[0])] + ProcessChildren(d, cs[1..])
  }

  /** Everything `processNode` may change between `a` and `b`: the tree keeps its shape,
      its tags, its other nodes and its attribute names; text and the five allow-listed
      attributes are kept or replaced by a non-empty translation; all other attributes
      are kept; and markers are only ever set, never cleared. */
  predicate Frame(d: Dict, a: Node, b: Node)
  {
    match a
    case Text(x) => b.Text? && Rewritten(d, x, b.content)
    case OtherNode(_) => b == a
    case Element(tag, attrs, translated, translatedAttr, children) =>
      && b.Element? && b.tag == tag
      && b.attrs.Keys == attrs.Keys
      && (forall k :: k in attrs ==> if IsTranslatableAttr(k) then Rewritten(d, attrs[k], b.attrs[k]) else b.attrs[k] == attrs[k])
      && (translated ==> b.translated)
      && (translatedAttr ==> b.translatedAttr)
      && |b.children| == |children|
      && forall i :: 0 <= i < |children| ==> Frame(d, children[i], b.children[i])
  }

  // ---------------------------------------------------------------------------
  // Lemmas

  lemma TranslatableAttrsDistinct()
    ensures Distinct(TranslatableAttrs)
  {
  }

  /** An element whose attributes went through the attribute pass, whose markers were at
      most set and whose children are each within the frame, is within the frame. */
  lemma ElementWithinFrame(d: Dict, n: Node, attrs: map<string, string>, translated: bool, translatedAttr: bool, children: seq<Node>)
    requires n.Element?
    requires attrs == AttributePass(d, n.attrs).attrs
    requires n.translated ==> translated
    requires n.translatedAttr ==> translatedAttr
    requires |children| == |n.children|
    requires forall i :: 0 <= i < |children| ==> Frame(d, n.children[i], children[i])
    ensures Frame(d, n, Element(n.tag, attrs, translated, translatedAttr, children))
  {
  }

  /** An element whose attributes went through the attribute pass and whose attribute
      marker was at most set, all else unchanged, is within the frame. */
  lemma AttrsWithinFrame(d: Dict, n: Node, attrs: map<string, string>, translatedAttr: bool)
    requires n.Element?
    requires attrs == AttributePass(d, n.attrs).attrs
    requires n.translatedAttr ==> translatedAttr
    ensures Frame(d, n, n.(attrs := attrs, translatedAttr := translatedAttr))
  {
    forall i | 0 <= i < |n.children| ensures Frame(d, n.children[i], n.children[i]) {
      FrameRefl(d, n.children[i]);
    }
    ElementWithinFrame(d, n, attrs, n.translated, translatedAttr, n.children);
  }

  /** An unmarked element that is not skipped is rewritten. */
  lemma UnmarkedIsRewritten(d: Dict, n: Node)
    requires n.Element? && !IsSkippedTag(n.tag) && !n.translated
    ensures ProcessNode(d, n) == RewriteElement(d, n)
  {
  }

  /** `Frame` is reflexive. */
  lemma {:induction false} FrameRefl(d: Dict, a: Node)
    ensures Frame(d, a, a)
  {
    match a
    case Element(_, _, _, _, children) =>
      forall i | 0 <= i < |children| ensures Frame(d, children[i], children[i]) {
        FrameRefl(d, children[i]);
      }
    case _ =>
  }

  /** `Frame` is transitive, so it bounds the effect of any sequence of passes. */
  lemma {:induction false} FrameTrans(d: Dict, a: Node, b: Node, c: Node)
    requires Frame(d, a, b) && Frame(d, b, c)
    ensures Frame(d, a, c)
  {
    match a
    case Element(_, _, _, _, children) =>
      forall i | 0 <= i < |children| ensures Frame(d, children[i], c.children[i]) {
        FrameTrans(d, children[i], b.children[i], c.children[i]);
      }
    case _ =>
  }

  /** The no-op cases: text and other nodes aside, a skipped or already marked element is
      returned as it is. */
  lemma ProcessSkips(d: Dict, n: Node)
    requires n.OtherNode? || (n.Element? && (IsSkippedTag(n.tag) || n.translated))
    ensures ProcessNode(d, n) == n
  {
  }

  /** A text node is rewritten exactly when its translation differs from it. */
  lemma ProcessText(d: Dict, content: string)
    ensures ProcessNode(d, Text(content)) == Text(TranslateText(d, content))
    ensures ProcessNode(d, Text(content)) != Text(content) <==> TranslateText(d, content) != content
  {
  }

  /** For an unmarked element with a single text child, the child stays the only child,
      and the `translated` marker is set exactly when the child's text changed. */
  lemma SingleTextChildMarker(d: Dict, n: Node)
    requires n.Element? && !IsSkippedTag(n.tag) && !n.translated
    requires |n.children| == 1 && n.children[0].Text?
    ensures var r := ProcessNode(d, n);
      |r.children| == 1 && r.children[0].Text?
      && (r.translated <==> r.children[0].content != n.children[0].content)
      && r.children[0].content == TranslateText(d, n.children[0].content)
  {
    UnmarkedIsRewritten(d, n);
  }

  /** The text child an element gets from the single-text-child rewrite is the child
      processed as a text node on its own. */
  lemma SingleTextChildProcessed(d: Dict, n: Node)
    requires n.Element? && !IsSkippedTag(n.tag) && !n.translated
    requires |n.children| == 1 && n.children[0].Text?
    ensures var r := ProcessNode(d, n);
      r.Element? && |r.children| == 1 && r.children[0] == ProcessNode(d, n.children[0])
  {
    UnmarkedIsRewritten(d, n);
  }

  /** `data-translated-attr` is newly set exactly when an allow-listed attribute changed. */
  lemma AttrMarker(d: Dict, n: Node)
    requires n.Element? && !IsSkippedTag(n.tag) && !n.translated && !n.translatedAttr
    ensures var r := ProcessNode(d, n);
      r.translatedAttr <==> r.attrs != n.attrs
  {
    UnmarkedIsRewritten(d, n);
  }

  /** `data-translated-attr` is written but never read: an element that already carries
      it is processed exactly like one that does not, apart from the marker itself. */
  lemma AttrMarkerNeverRead(d: Dict, n: Node)
    requires n.Element?
    ensures var r := ProcessNode(d, n);
      r.Element? && ProcessNode(d, n.(translatedAttr := true)) == r.(translatedAttr := true)
  {
    if !IsSkippedTag(n.tag) && !n.translated {
      var m := n.(translatedAttr := true);
      var ar := AttributePass(d, n.attrs);
      UnmarkedIsRewritten(d, n);
      UnmarkedIsRewritten(d, m);
      if |n.children| == 1 && n.children[0].Text? {
        assert ProcessNode(d, n) == RewriteSingleText(d, n, ar.attrs, n.translatedAttr || ar.changed);
        assert ProcessNode(d, m) == RewriteSingleText(d, m, ar.attrs, true);
        SingleTextMarkerIgnored(d, n, ar.attrs, n.translatedAttr || ar.changed);
      } else {
        assert ProcessNode(d, m) == Element(n.tag, ar.attrs, false, true, ProcessChildren(d, n.children));
      }
    }
  }

  /** The single-text shortcut does not look at the attribute marker it is handed. */
  lemma SingleTextMarkerIgnored(d: Dict, n: Node, attrs: map<string, string>, markedAttr: bool)
    requires n.Element? && |n.children| == 1 && n.children[0].Text?
    requires attrs == AttributePass(d, n.attrs).attrs && (n.translatedAttr ==> markedAttr)
    ensures RewriteSingleText(d, n, attrs, markedAttr).Element?
    ensures RewriteSingleText(d, n.(translatedAttr := true), attrs, true)
         == RewriteSingleText(d, n, attrs, markedAttr).(translatedAttr := true)
  {
    var t := TranslateText(d, n.children[0].content);
    if t != "" && t != n.children[0].content {
    } else {
    }
  }

  /** With an empty dictionary processing changes nothing at all. */
  lemma {:induction false} ProcessEmptyDict(n: Node)
    ensures ProcessNode(map[], n) == n
  {
    match n
    case Text(content) => TranslateEmptyDict(content);
    case OtherNode(_) =>
    case Element(tag, attrs, translated, translatedAttr, children) =>
      if !IsSkippedTag(tag) && !translated {
        UnmarkedIsRewritten(map[], n);
        var ar := AttributePass(map[], attrs);
        forall k | k in attrs ensures ar.attrs[k] == attrs[k] {
          TranslateEmptyDict(attrs[k]);
        }
        assert ar.attrs == attrs;
        if |children| == 1 && children[0].Text? {
          TranslateEmptyDict(children[0].content);
        } else {
          var cs := ProcessChildren(map[], children);
          forall i | 0 <= i < |children| ensures cs[i] == children[i] {
            ProcessEmptyDict(children[i]);
          }
          assert cs == children;
        }
      }
  }

  /** With a stable dictionary rewriting an attribute value twice is rewriting it once. */
  lemma AttrValueTwice(d: Dict, v: string)
    requires Stable(d)
    ensures AttrValue(d, AttrValue(d, v)) == AttrValue(d, v)
  {
    var v1 := AttrValue(d, v);
    if v1 != v {
      assert TranslateText(d, v1) == v1;
    }
  }

  /** With a stable dictionary an attribute pass is idempotent and the second pass sets nothing. */
  lemma TranslateAttrsTwice(d: Dict, attrs: map<string, string>)
    requires Stable(d)
    ensures var once := AttributePass(d, attrs);
      AttributePass(d, once.attrs) == AttrResult(once.attrs, false)
  {
    var once := AttributePass(d, attrs);
    var twice := AttributePass(d, once.attrs);
    forall k | k in once.attrs
      ensures twice.attrs[k] == once.attrs[k]
    {
      if IsTranslatableAttr(k) {
        AttrValueTwice(d, attrs[k]);
      }
    }
    assert twice.attrs == once.attrs;
  }

  /** With a stable dictionary processing is idempotent: a second pass over a processed
      tree changes nothing. */
  lemma {:induction false} ProcessIdempotent(d: Dict, n: Node)
    requires Stable(d)
    ensures ProcessNode(d, ProcessNode(d, n)) == ProcessNode(d, n)
  {
    match n
    case Text(content) => TranslateTwice(d, content);
    case OtherNode(_) =>
    case Element(tag, attrs, translated, translatedAttr, children) =>
      if !IsSkippedTag(tag) && !translated {
        UnmarkedIsRewritten(d, n);
        TranslateAttrsTwice(d, attrs);
        if !(|children| == 1 && children[0].Text?) {
          var r := ProcessNode(d, n);
          var cs := ProcessChildren(d, children);
          assert r.children == cs && r.tag == tag && !r.translated;
          assert !(|cs| == 1 && cs[0].Text?) by {
            if |cs| == 1 {
              assert Frame(d, children[0], cs[0]);
            }
          }
          UnmarkedIsRewritten(d, r);
          var cs2 := ProcessChildren(d, cs);
          forall i | 0 <= i < |children| ensures cs2[i] == cs[i] {
            ProcessIdempotent(d, children[i]);
          }
          assert cs2 == cs;
        } else {
          var r := ProcessNode(d, n);
          var t := TranslateText(d, children[0].content);
          if !(t != "" && t != children[0].content) {
            assert r.children == children && r.tag == tag && !r.translated;
            UnmarkedIsRewritten(d, r);
          }
        }
      }
  }

  /** Without a stable dictionary a second pass may translate again. */
  lemma ProcessTwiceCounterexample()
    ensures var d := map["a" := "b", "b" := "c"];
      ProcessNode(d, Text("a")) == Text("b") && ProcessNode(d, Text("b")) == Text("c")
  {
    TranslateTwiceCounterexample();
  }

  /** Processing a parent leaves every child that is already marked exactly as it was,
      while its other children are processed afresh. */
  lemma MarkedChildUntouched(d: Dict, n: Node, i: nat)
    requires n.Element? && !IsSkippedTag(n.tag) && !n.translated
    requires !(|n.children| == 1 && n.children[0].Text?)
    requires i < |n.children|
    ensures var r := ProcessNode(d, n);
      |r.children| == |n.children|
      && r.children[i] == ProcessNode(d, n.children[i])
      && (n.children[i].Element? && n.children[i].translated ==> r.children[i] == n.children[i])
  {
    UnmarkedIsRewritten(d, n);
  }

  /** An unmarked element that is not skipped gets exactly the attribute pass, gains the
      attribute marker exactly when that pass changed something (or keeps the one it had),
      and is marked translated only through the single-text-child rewrite. */
  lemma UnmarkedElementPass(d: Dict, n: Node)
    requires n.Element? && !IsSkippedTag(n.tag) && !n.translated
    ensures var r := ProcessNode(d, n);
      var ar := AttributePass(d, n.attrs);
      && r.Element? && r.tag == n.tag
      && r.attrs == ar.attrs
      && r.translatedAttr == (n.translatedAttr || ar.changed)
      && (r.translated ==> |n.children| == 1 && n.children[0].Text?)
  {
    UnmarkedIsRewritten(d, n);
  }

  /** An allow-listed attribute whose value translates to something else is rewritten,
      and the element is marked as having translated attributes; it is not marked as
      translated unless its only child is a text node. */
  lemma AttributeRewritten(d: Dict, n: Node, name: string)
    requires n.Element? && !IsSkippedTag(n.tag) && !n.translated
    requires IsTranslatableAttr(name) && name in n.attrs
    requires n.attrs[name] != "" && TranslateText(d, n.attrs[name]) != n.attrs[name]
    ensures var r := ProcessNode(d, n);
      && r.attrs[name] == TranslateText(d, n.attrs[name]) && r.translatedAttr
      && (!(|n.children| == 1 && n.children[0].Text?) ==> !r.translated)
  {
    var ar := AttributePass(d, n.attrs);
    assert ar.attrs[name] != n.attrs[name];
    UnmarkedElementPass(d, n);
  }

  /** "Enter prompt:" is looked up through the key "Enter prompt". */
  lemma PlaceholderLookup()
    ensures AttrValue(map["Enter prompt" := "输入提示"], "Enter prompt:") == "输入提示"
  {
    var d := map["Enter prompt" := "输入提示"];
    assert "Enter prompt:" == "Enter prompt" + [':'];
    assert "Enter prompt:" != "Enter prompt";
    Keys.AsciiWordsKeyShaped("Enter prompt");
    ColonlessKeyMatches(d, "Enter prompt", ':');
  }

  /** A placeholder "Enter prompt:" is translated through the key "Enter prompt" and the
      element is marked as having translated attributes. */
  lemma PlaceholderExample()
    ensures var d := map["Enter prompt" := "输入提示"];
      var n := Element("INPUT", map["placeholder" := "Enter prompt:"], false, false, []);
      var r := ProcessNode(d, n);
      r.attrs["placeholder"] == "输入提示" && r.translatedAttr && !r.translated
  {
    PlaceholderLookup();
    var d := map["Enter prompt" := "输入提示"];
    var n := Element("INPUT", map["placeholder" := "Enter prompt:"], false, false, []);
    assert !IsSkippedTag("INPUT");
    AttributeRewritten(d, n, "placeholder");
  }
}

=== FILE: wrappers.dfy ===
/** Optional values, standing for JavaScript's `undefined`/`null` results
    (a missing attribute, an absent cache record, a path that leads nowhere). */
module Wrappers {

  datatype Option<+T> = None | Some(value: T) {

    /** The carried value, or `default` when there is none (JavaScript's `x || default`
        for values that are never falsy when present). */
    function GetOr(default: T): T
    {
      match this
      case Some(v) => v
      case None => default
    }
  }
}
